=== FILE: README.md ===
# FilmAffinity ratings export, modelled in Dafny

`export.py` downloads a FilmAffinity user's rating list one page at a time.
It turns every rating row that holds a movie item into a seven-field record: Title, Year, UserRating,
AvgRating, WatchedDate, Directors and Actors. This project models the logic
of that script once the network and the HTML parser are taken away. It covers:

- `get_data`: the page loop, the list of dated headers, the record built
  from each row, and the reverse scan that finds a row's watched date;
- `get_date` (English branch), `get_directors` and `is_film`.

Files:

- `wrappers.dfy`: the `Option` type that stands for "element not found",
  "parse failed" or "no match".
- `text.dfy`: Python's `str.isspace`, `str.strip`, `str.endswith` and
  `", ".join`, with its inverse `split(", ")`, and zero-padded decimals.
- `dates.dfy`:
  - `datetime.strptime(s, "%B %d, %Y")` with English month names;
  - `strftime("%Y-%m-%d")`;
  - `get_date`;
  - the `re.search(r"Rated on (.+)", …)` that reads each header's date.
- `film_tags.dfy`: `get_directors`, both as written and corrected, and `is_film`.
- `scraper.dfy`: `get_data`.

How the input is represented:

- A fetched page is a status code, its rating rows and its date headers.
- Every markup element the code looks up is an `Option` holding its stripped
  text.
- Page number `n` is answered by the `n`-th page of the input sequence.
- The loops of `get_data` are methods with loop invariants. Each is proved
  equal to a specification function, and the properties are lemmas about those
  functions:
  - the page loop: `Scraper.GetData`;
  - the loop over one page's rows: `Scraper.ProcessPage`;
  - the loop that builds the header dates: `Scraper.CollectHeaderDates`;
  - the reverse scan with `break`: `Scraper.FindWatchedDate`.

Behaviour of the code that is easy to misread, which the model follows as written:

- **Failed page with rows.** A page answered with a status other than 200
  still has its rows appended before the loop stops (export.py:109-167).
  `Scraper.FailedPageFixture` shows this.
- **Row without an ordering by line.** The code does not fall back to the
  first header. The reverse scan takes the LAST header that has no usable
  source line. A source line of 0 counts as missing, as Python truthiness
  makes it (export.py:125-130).
- **Title.** A title element that is present but empty gives the title `""`.
  Only an absent title element gives `"(No title)"` (export.py:133-134).
- **Dead code.** `get_data` calls none of `get_date`, `is_film` and
  `get_directors`. It reads header dates with its own regular expression and
  joins the director link texts itself. All three functions are still
  modelled, because they are part of the file.

## Model

| member | source | states |
|---|---|---|
| Text.Strip | export.py:39 | the result has no whitespace at either end and is the input with its leading whitespace run, and only whitespace after it, removed |
| Text.StripOfSuffix | export.py:39 | stripping what follows the first `k` characters leaves a slice of the input with only whitespace between position `k` and it and after it |
| Text.StripSurrounded | export.py:39 | stripping whitespace put around a trimmed string gives that string back |
| Text.Pad2 | export.py:42 | `%m`/`%d` give two ASCII digits whose decimal value is the number |
| Text.Pad4 | export.py:42 | `%Y` gives four ASCII digits whose decimal value is the year |
| Text.JoinNames | export.py:56 | `", ".join` of no names is ""; otherwise the result begins with the first name and ends with the last (the same join builds a row's directors at export.py:144) |
| Text.SplitJoinNames | export.py:56 | splitting `", ".join(names)` on `", "` gives back the names, for a non-empty list of names none of which holds a comma (`"".split(", ")` is `[""]`) |
| Dates.FindMonth | export.py:40 | `%B` lookup: the number of the first month whose lower-case name equals the key, or none when no month's does |
| Dates.ParseEnglishDate | export.py:40 | a parse that succeeds yields a real calendar date (year at least 1, day within its month, leap years included) |
| Dates.ParseAcceptsRendering | export.py:40 | the parse accepts a month name in any letter case, any non-empty whitespace where the format has a space, and a day with or without a leading zero, and recovers the date |
| Dates.ParseEnglishDateOnlyRenderings | export.py:40 | a successful parse read exactly a month name in some letter case, non-empty whitespace, the day with or without a leading zero, a comma, non-empty whitespace and the four-digit year of the date it returns (the converse of `ParseAcceptsRendering`) |
| Dates.ParseEnglishRoundTrip | export.py:40 | a date written the site's way ("January 5, 2021") parses back to that date |
| Dates.FormatIso | export.py:42 | the ISO rendering is ten characters long |
| Dates.IsoRoundTrip | export.py:42 | reading back the `YYYY-MM-DD` rendering gives the same date |
| Dates.GetDate | export.py:31-42 | any result is ISO text that reads back as exactly the date parsed from the stripped text after the first nine characters, and renders back to itself; no tag string, or text that does not parse, gives none |
| Dates.AfterRatedOn | export.py:39 | `s[9:].strip()`: no whitespace at either end; "" for a string of at most nine characters; otherwise a slice of the string after its ninth character with only whitespace before and after it |
| Dates.AfterRatedOnOf | export.py:39 | cutting nine characters and stripping recovers a trimmed date text from the tag string |
| Dates.GetDateRendering | export.py:39-42 | whatever the first nine characters are, a date written the site's way, with any whitespace around it, comes out in ISO form |
| Dates.GetDateExample | export.py:31-42 | "Rated on January 5, 2021" gives "2021-01-05" |
| Dates.LineEnd | export.py:99 | the greedy `(.+)` stops at the first newline or at the end of the text |
| Dates.FirstMatch | export.py:99 | the search finds the leftmost position where "Rated on " is followed by a character other than a newline |
| Dates.RatedOnGroup | export.py:99-100 | there is no match exactly when the text holds no "Rated on " followed by a non-newline; a group is non-empty, holds no newline, and is the text from just after the leftmost match up to the next newline or the end of the text |
| Dates.HeaderDate | export.py:99-106 | no match gives ""; a group that parses as a date gives ISO text that reads back as that date; any other group is kept verbatim |
| Dates.RatedOnGroupOf | export.py:99 | on "Rated on " followed by one non-empty line of text (no newline), the group is that text |
| Dates.HeaderDateEmpty | export.py:99-106 | a header's date is "" exactly when its text has no match |
| Dates.HeaderDateOfLine | export.py:99-104 | after "Rated on ", one non-empty line of text (no newline) that parses gives its ISO date, and any other such line is kept verbatim |
| Dates.HeaderDateRendering | export.py:102 | a header "Rated on " plus a date written the site's way gives that date in ISO form |
| Dates.HeaderDateExample | export.py:102 | "Rated on January 5, 2021" gives "2021-01-05" |
| Dates.UnknownIsNoDate | export.py:102 | "Unknown" is not a date |
| Dates.HeaderDateFallbackExample | export.py:103-104 | the header "Rated on Unknown" gets the date "Unknown" |
| FilmTags.GetDirectors | export.py:45-56 | no director container gives none (the `[0]` raises); otherwise the first container's names joined by ", " in document order, unchanged |
| FilmTags.CreatorSuffixKept | export.py:52-54 | a name ending in "(Creator)" keeps that suffix in the result |
| FilmTags.TrimCreator | export.py:53-54 | a name ending in " (Creator)" loses exactly that suffix; a name not ending in "(Creator)" is unchanged |
| FilmTags.GetDirectorsTrimmed | export.py:45-56 | the corrected function joins the names after trimming each one |
| FilmTags.TrimmedDirectorsSplit | export.py:52-56 | for a non-empty list of names none of which holds a comma, the corrected result splits back into one name per director, each credited creator without " (Creator)" |
| FilmTags.SkipList | export.py:63-68 | each language's list holds four parenthesised suffixes, "(TV)" among them |
| FilmTags.AnyEndsWith | export.py:70 | true exactly when some suffix in the list ends the string |
| FilmTags.IsFilm | export.py:59-70 | false exactly when the stripped title ends with one of the four skip suffixes of the language's list (`SkipList`: Spanish for "es", English otherwise) |
| FilmTags.NotFilmBySuffix | export.py:62-70 | a title ending with a skip suffix, with any whitespace after it, is not a film |
| FilmTags.FilmWithoutSuffix | export.py:62-70 | a trimmed title that ends with none of the skip suffixes is a film |
| FilmTags.SeriesIsNotFilm | export.py:68-70 | "The Simpsons (TV Series)" is not a film in English |
| FilmTags.SeriesIsFilmInSpanish | export.py:65-70 | the same title counts as a film with the Spanish list |
| FilmTags.ShortIsNotFilm | export.py:62-70 | "Paperman (S) " is not a film in an unknown language, once stripped |
| Scraper.WatchedDateIsLastQualifying | export.py:124-130 | the watched date is the date of the last header that precedes the row by source line or has no source line |
| Scraper.WatchedDateEmptyWhenNoneQualifies | export.py:123-131 | the watched date is "" when no header qualifies |
| Scraper.RowWithoutLine | export.py:125-130 | a row without a source line gets the date of the last header without one, or "" when every header has one |
| Scraper.FindWatchedDate | export.py:122-131 | the reverse scan with `break` returns the date of the last qualifying header |
| Scraper.CollectHeaderDates | export.py:93-107 | `header_dates` holds each header's line and date, in document order |
| Scraper.RowFilm | export.py:111-165 | a row gives a record exactly when it has a movie item; the title is empty only when the title element is present and empty; the watched date is the reverse scan's date (what every other field holds is stated by `FieldDefaults`) |
| Scraper.FieldDefaults | export.py:111-152 | each present element's text becomes its field (title, year, user rating inside `col-2`, average rating, actors), and each field falls back on its own: the title to "(No title)" when its element is absent, the others to "" exactly when their element is absent or empty; directors are the link texts joined by ", " |
| Scraper.MissingElementChangesOneField | export.py:111-152 | removing one sub-element changes only its own field of the record |
| Scraper.RowsFilmsCount | export.py:117-120 | a page yields at most one record per row, and exactly one per row only when every row has a movie item |
| Scraper.RowsFilmsOrigin | export.py:109-165 | every record of a page comes from one of its rows |
| Scraper.ProcessPage | export.py:93-165 | one pass of the loop body appends the page's records in row order |
| Scraper.FirstStop | export.py:167 | the first page, at or after a position, that is not 200 or has no rows (`Stops` is the `eof` expression of export.py:167 as written) |
| Scraper.GetData | export.py:73-175 | pages 1, 2, 3, … are requested with no gap, up to and including the first page that is not 200 or has no rows; the data are the records of the requested pages, in page order and then row order |
| Scraper.ScrapedPrefix | export.py:165 | records are only ever appended, so fewer pages give a prefix |
| Scraper.ScrapedIgnoresLaterPages | export.py:167-173 | the data do not depend on the pages after the stopping one |
| Scraper.ScrapedCount | export.py:118-120 | there are never more records than rows fetched |
| Scraper.ScrapedOrigin | export.py:109-165 | every record comes from a row, with a movie item, of a requested page |
| Scraper.TitlesNonEmpty | export.py:133-134 | every record has a non-empty title unless the site gave an empty title element |
| Scraper.TwoPageFixture | export.py:167-173 | two rows then an empty page: pages 1 and 2 are requested and two records result |
| Scraper.FailedPageFixture | export.py:109-167 | a page answered 500 that still has rows contributes them, and the loop stops there |

## Left out

- HTTP fetching, `request.encoding` and the URL built from the user id and
  language (export.py:79-87): network I/O. Pages are given as input values.
- BeautifulSoup/lxml parsing, `find`, `find_all` and `get_text(strip=True)`:
  a library outside this file. Each located element is an `Option` of its
  already-stripped text.
- `set_locale` and the process locale (export.py:18-28): platform-dependent.
  Only the English month names of `"%B %d, %Y"` are modelled.
- The Spanish branch of `get_date` (export.py:34-37): it depends on locale
  month names. `get_date` is modelled for every language other than "es".
- `save_to_csv` (export.py:178-186): file I/O. Its `data[0]` raises
  `IndexError` when no record was scraped (export.py:183). That crash is not
  modelled.
- Argument parsing, `__main__` and every `print`: user interface only.
- Dates.ParseEnglishDate: the digits are ASCII only, but Python's `\d` also
  accepts other Unicode decimal digits.
- Dates.FormatIso: `%Y` is always padded to four digits. For years below 1000
  the real output depends on the platform's C library.
- Scraper.GetData: requires that some page stops the loop. On input where no
  page stops, the source requests pages for ever.
- FilmTags.GetDirectors: the name links are given as their `title`
  attributes. A link without an `a` element or a `title` attribute raises in
  the source, and that is not modelled.
- FilmTags.IsFilm: the title is given as text. The exceptions raised when the
  title element or its link is missing are not modelled.
- The CSV output, and so any property of the written file, is outside the
  model.

## Findings

| source | as written | input that shows it | evidently intended | confidence | as-written member | corrected member |
|---|---|---|---|---|---|---|
| export.py:52-54 | the loop assigns `director[:-10]` to the loop variable only, so the list is joined unchanged | `["Matt Groening (Creator)"]` gives "Matt Groening (Creator)" | each name ending in " (Creator)" is joined without that suffix, giving "Matt Groening" | medium, not executed | FilmTags.CreatorSuffixKept | FilmTags.GetDirectorsTrimmed |

=== FILE: dates.dfy ===
/** Dates in export.py: the English `"%B %d, %Y"` parse that
    `datetime.strptime` performs, the `"%Y-%m-%d"` rendering of `strftime`,
    `get_date`, and the date taken from each "Rated on" header in `get_data`. */
module Dates {

  import opened Wrappers
  import opened Text

  datatype Date = Date(year: int, month: int, day: int)

  predicate IsLeapYear(year: int) {
    year % 4 == 0 && (year % 100 != 0 || year % 400 == 0)
  }

  function DaysInMonth(year: int, month: int): (n: int)
    requires 1 <= month <= 12
    ensures 28 <= n <= 31
  {
    if month == 2 then (if IsLeapYear(year) then 29 else 28)
    else if month == 4 || month == 6 || month == 9 || month == 11 then 30
    else 31
  }

  /** A date that Python's `datetime.date` constructor accepts. */
  predicate ValidDate(d: Date) {
    && 1 <= d.year <= 9999
    && 1 <= d.month <= 12
    && 1 <= d.day <= DaysInMonth(d.year, d.month)
  }

  /** Full English month names, as `%B` prints them. */
  const MonthNames: seq<string> := [
    "January", "February", "March", "April", "May", "June",
    "July", "August", "September", "October", "November", "December"
  ]

  /** The same names lower-cased: `strptime` matches `%B` ignoring case and
      looks the lower-cased text up in this table. */
  const MonthKeys: seq<string> := [
    "january", "february", "march", "april", "may", "june",
    "july", "august", "september", "october", "november", "december"
  ]

  lemma MonthNameLower(k: nat)
    requires k < 12
    ensures LowerAscii(MonthNames[k]) == MonthKeys[k]
  {
  }

  lemma MonthNameLetters(k: nat)
    requires k < 12
    ensures |MonthNames[k]| > 0 && forall i :: 0 <= i < |MonthNames[k]| ==> IsLetter(MonthNames[k][i])
  {
  }

  /** The month names are letters, and lower-cased they are the keys. */
  lemma MonthName(k: nat)
    requires k < 12
    ensures LowerAscii(MonthNames[k]) == MonthKeys[k]
    ensures |MonthNames[k]| > 0 && forall i :: 0 <= i < |MonthNames[k]| ==> IsLetter(MonthNames[k][i])
  {
    MonthNameLower(k);
    MonthNameLetters(k);
  }

  /** The keys are lower-case letters, and no key starts with 'u'. */
  lemma MonthKey(k: nat)
    requires k < 12
    ensures |MonthKeys[k]| >= 3 && MonthKeys[k][0] != 'u'
    ensures forall i :: 0 <= i < |MonthKeys[k]| ==> 'a' <= MonthKeys[k][i] <= 'z'
  {
  }

  /** The length with the first and third letters tell the keys apart. */
  lemma MonthKeysDistinct(j: nat, k: nat)
    requires j < k < 12
    ensures MonthKeys[j] != MonthKeys[k]
  {
    var sig := [(7, 'j', 'n'), (8, 'f', 'b'), (5, 'm', 'r'), (5, 'a', 'r'), (3, 'm', 'y'), (4, 'j', 'n'),
                (4, 'j', 'l'), (6, 'a', 'g'), (9, 's', 'p'), (7, 'o', 't'), (8, 'n', 'v'), (8, 'd', 'c')];
    assert (|MonthKeys[j]|, MonthKeys[j][0], MonthKeys[j][2]) == sig[j];
    assert (|MonthKeys[k]|, MonthKeys[k][0], MonthKeys[k][2]) == sig[k];
  }

  /** The 1-based number of the first month at or after index `k` whose key is `key`. */
  function FindMonth(key: string, k: nat): (r: Option<int>)
    requires k <= |MonthKeys|
    decreases |MonthKeys| - k
    ensures r.Some? ==> k < r.value <= |MonthKeys| && MonthKeys[r.value - 1] == key
    ensures r.Some? ==> forall j :: k <= j < r.value - 1 ==> MonthKeys[j] != key
    ensures r.None? ==> forall j :: k <= j < |MonthKeys| ==> MonthKeys[j] != key
  {
    if k == |MonthKeys| then None
    else if MonthKeys[k] == key then Some(k + 1)
    else FindMonth(key, k + 1)
  }

  /** Length of the `%d` field at the start of `s`: one or two digits directly followed by the format's comma, or 0. */
  function DayLength(s: string): (n: nat)
    ensures n <= 2
    ensures n > 0 ==> n < |s| && s[n] == ',' && AllDigits(s[..n])
  {
    if 2 <= |s| && IsDigit(s[0]) && s[1] == ',' then 1
    else if 3 <= |s| && IsDigit(s[0]) && IsDigit(s[1]) && s[2] == ',' then 2
    else 0
  }

  /** The `" %d,"` part of the format: whitespace, the day and the comma; gives the day and what follows the comma. */
  function DayField(s: string): Option<(int, string)> {
    var w := SpaceRun(s);
    var rest := s[w..];
    var n := DayLength(rest);
    if w == 0 || n == 0 then None
    else Some((DecimalValue(rest[..n]), rest[n + 1..]))
  }

  /** The `" %Y"` end of the format: whitespace and exactly four digits, then nothing. */
  function YearField(s: string): Option<int> {
    var w := SpaceRun(s);
    if w == 0 || |s| - w != 4 || !AllDigits(s[w..]) then None
    else Some(DecimalValue(s[w..]))
  }

  /** `datetime.strptime(s, "%B %d, %Y")` in an English locale: the month name
      in any letter case, one or more whitespace characters, a day of one or
      two digits, a comma, one or more whitespace characters, exactly four
      digits of year and nothing after; the day must exist in that month and
      the year must be at least 1. `None` stands for the `ValueError`. */
  function ParseEnglishDate(s: string): (r: Option<Date>)
    ensures r.Some? ==> ValidDate(r.value)
  {
    var t := WordRun(s);
    match FindMonth(LowerAscii(s[..t]), 0)
    case None => None
    case Some(month) =>
      match DayField(s[t..])
      case None => None
      case Some((day, afterComma)) =>
        match YearField(afterComma)
        case None => None
        case Some(year) =>
          var d := Date(year, month, day);
          if ValidDate(d) then Some(d) else None
  }

  lemma SpaceRunOf(w: string, x: string)
    requires AllSpace(w) && (x == [] || !IsSpace(x[0]))
    ensures SpaceRun(w + x) == |w|
  {
    var s := w + x;
    if |x| > 0 {
      assert s[|w|] == x[0];
    }
    assert forall i :: 0 <= i < |w| ==> s[i] == w[i];
  }

  lemma DayLengthOf(day: string, rest: string)
    requires 1 <= |day| <= 2 && AllDigits(day)
    ensures DayLength(day + "," + rest) == |day|
    ensures (day + "," + rest)[..|day|] == day && (day + "," + rest)[|day| + 1..] == rest
  {
    var field := day + "," + rest;
    assert field[0] == day[0];
    assert field[|day|] == ',';
    if |day| == 2 {
      assert field[1] == day[1];
    }
    assert field[..|day|] == day;
    assert field[|day| + 1..] == rest;
  }

  lemma DayFieldOf(w: string, day: string, rest: string)
    requires |w| > 0 && AllSpace(w) && 1 <= |day| <= 2 && AllDigits(day)
    ensures DayField(w + day + "," + rest) == Some((DecimalValue(day), rest))
  {
    var field := day + "," + rest;
    assert w + day + "," + rest == w + field;
    SpaceRunOf(w, field);
    assert (w + field)[|w|..] == field;
    DayLengthOf(day, rest);
  }

  lemma YearFieldOf(w: string, year: string)
    requires |w| > 0 && AllSpace(w) && |year| == 4 && AllDigits(year)
    ensures YearField(w + year) == Some(DecimalValue(year))
  {
    SpaceRunOf(w, year);
    assert (w + year)[|w|..] == year;
  }

  lemma FindMonthKey(k: nat)
    requires k < 12
    ensures FindMonth(MonthKeys[k], 0) == Some(k + 1)
  {
    forall j | 0 <= j < k ensures MonthKeys[j] != MonthKeys[k] {
      MonthKeysDistinct(j, k);
    }
  }

  lemma WordRunOf(word: string, rest: string)
    requires forall i :: 0 <= i < |word| ==> !IsSpace(word[i])
    requires |rest| > 0 && IsSpace(rest[0])
    ensures WordRun(word + rest) == |word|
  {
    var s := word + rest;
    assert forall i :: 0 <= i < |word| ==> s[i] == word[i];
    assert s[|word|] == rest[0];
  }

  lemma MonthToken(monthText: string, k: nat, rest: string)
    requires k < 12 && LowerAscii(monthText) == MonthKeys[k]
    requires |rest| > 0 && IsSpace(rest[0])
    ensures WordRun(monthText + rest) == |monthText|
    ensures (monthText + rest)[..|monthText|] == monthText
    ensures FindMonth(LowerAscii(monthText), 0) == Some(k + 1)
  {
    MonthKey(k);
    forall i | 0 <= i < |monthText| ensures !IsSpace(monthText[i]) {
      assert LowerAscii(monthText)[i] == MonthKeys[k][i];
    }
    WordRunOf(monthText, rest);
    FindMonthKey(k);
  }

  /** `date.strftime("%Y-%m-%d")`. */
  function FormatIso(d: Date): (r: string)
    requires ValidDate(d)
    ensures |r| == 10
  {
    Pad4(d.year) + "-" + Pad2(d.month) + "-" + Pad2(d.day)
  }

  /** Reads a `YYYY-MM-DD` string back; the inverse of `FormatIso`. */
  function ParseIso(s: string): Option<Date> {
    if |s| == 10 && s[4] == '-' && s[7] == '-' && AllDigits(s[..4]) && AllDigits(s[5..7]) && AllDigits(s[8..]) then
      Some(Date(DecimalValue(s[..4]), DecimalValue(s[5..7]), DecimalValue(s[8..])))
    else None
  }

  lemma IsoRoundTrip(d: Date)
    requires ValidDate(d)
    ensures ParseIso(FormatIso(d)) == Some(d)
  {
    var s := FormatIso(d);
    assert s[..4] == Pad4(d.year);
    assert s[5..7] == Pad2(d.month);
    assert s[8..] == Pad2(d.day);
  }

  /** The day as `%d` may be written: one digit when below 10 unless padded, else two. */
  function DayText(day: int, padded: bool): (r: string)
    requires 1 <= day <= 31
    ensures 1 <= |r| <= 2 && AllDigits(r) && DecimalValue(r) == day
  {
    if padded || day >= 10 then Pad2(day)
    else
      DecimalValueAppend([], DigitChar(day));
      assert [] + [DigitChar(day)] == [DigitChar(day)];
      [DigitChar(day)]
  }

  /** The parse accepts every way the site's English date can be written and recovers the date:
      the month name in any letter case, any non-empty whitespace where the format has a space,
      and the day with or without a leading zero. */
  lemma ParseAcceptsRendering(d: Date, monthText: string, w1: string, padded: bool, w2: string)
    requires ValidDate(d)
    requires LowerAscii(monthText) == MonthKeys[d.month - 1]
    requires |w1| > 0 && AllSpace(w1) && |w2| > 0 && AllSpace(w2)
    ensures ParseEnglishDate(monthText + w1 + DayText(d.day, padded) + "," + w2 + Pad4(d.year)) == Some(d)
  {
    var dt, y := DayText(d.day, padded), Pad4(d.year);
    var tail := w1 + dt + "," + (w2 + y);
    var s := monthText + w1 + dt + "," + w2 + y;
    assert s == monthText + tail;
    MonthToken(monthText, d.month - 1, tail);
    assert s[|monthText|..] == tail;
    DayFieldOf(w1, dt, w2 + y);
    YearFieldOf(w2, y);
  }

  /** A date as the site writes it: `January 5, 2021`. */
  function EnglishDate(d: Date): string
    requires ValidDate(d)
  {
    MonthNames[d.month - 1] + " " + DayText(d.day, false) + ", " + Pad4(d.year)
  }

  lemma EnglishDateShape(d: Date)
    requires ValidDate(d)
    ensures var e := EnglishDate(d); Trimmed(e) && forall i :: 0 <= i < |e| ==> e[i] != '\n'
  {
    MonthName(d.month - 1);
    var m, dt, y := MonthNames[d.month - 1], DayText(d.day, false), Pad4(d.year);
    var e := EnglishDate(d);
    assert e == m + " " + dt + ", " + y;
    assert |m| > 0 && IsLetter(m[0]);
    assert e[0] == m[0];
    assert e[|e| - 1] == y[3];
    forall i | 0 <= i < |e| ensures e[i] != '\n' {
      if i < |m| {
        assert e[i] == m[i];
      } else if i >= |m| + 1 && i < |m| + 1 + |dt| {
        assert e[i] == dt[i - |m| - 1];
      } else if i >= |m| + 3 + |dt| {
        assert e[i] == y[i - |m| - 3 - |dt|];
      }
    }
  }

  lemma ParseEnglishRoundTrip(d: Date)
    requires ValidDate(d)
    ensures ParseEnglishDate(EnglishDate(d)) == Some(d)
  {
    MonthName(d.month - 1);
    var m, dt, y := MonthNames[d.month - 1], DayText(d.day, false), Pad4(d.year);
    assert EnglishDate(d) == m + " " + dt + "," + " " + y;
    ParseAcceptsRendering(d, m, " ", false, " ");
  }

  /** The pieces `DayField` reads: the whitespace, the one or two digits of the day, the comma. */
  lemma DayFieldParts(s: string)
    requires DayField(s).Some?
    ensures var w := SpaceRun(s); var rest := s[w..]; var n := DayLength(rest);
      && 0 < w && 1 <= n <= 2
      && AllSpace(s[..w]) && AllDigits(rest[..n])
      && DecimalValue(rest[..n]) == DayField(s).value.0
      && s == s[..w] + rest[..n] + "," + DayField(s).value.1
  {
    var w := SpaceRun(s);
    var rest := s[w..];
    var n := DayLength(rest);
    var spaces, digits, after := s[..w], rest[..n], rest[n + 1..];
    SplitAround(rest, n);
    SplitAt(s, w);
    AppendAssoc(spaces, digits + ",", after);
    AppendAssoc(spaces, digits, ",");
    assert AllSpace(spaces);
  }

  /** The pieces `YearField` reads: the whitespace and the four digits of the year. */
  lemma YearFieldParts(s: string)
    requires YearField(s).Some?
    ensures var w := SpaceRun(s);
      && 0 < w && |s| == w + 4 && AllSpace(s[..w]) && AllDigits(s[w..])
      && DecimalValue(s[w..]) == YearField(s).value
      && s == s[..w] + s[w..]
  {
    var w := SpaceRun(s);
    assert 0 < w && |s| - w == 4 && AllDigits(s[w..]);
    assert DecimalValue(s[w..]) == YearField(s).value;
    assert s == s[..w] + s[w..];
    assert AllSpace(s[..w]);
  }

  /** The day digits the parse read are the day written unpadded (one digit) or padded (two). */
  lemma DayTextOf(day: int, digits: string)
    requires 1 <= day <= 31 && 1 <= |digits| <= 2 && AllDigits(digits) && DecimalValue(digits) == day
    ensures digits == DayText(day, |digits| == 2)
  {
    if |digits| == 1 {
      assert digits == digits[..0] + [digits[0]];
      assert day < 10;
    }
    DigitsUnique(digits, DayText(day, |digits| == 2));
  }

  /** What follows the month name in a successful parse: whitespace, the day with or
      without a leading zero, a comma, whitespace and the four-digit year. */
  lemma DayAndYearParts(rest: string, day: int, afterComma: string, year: int) returns (w1: string, padded: bool, w2: string)
    requires DayField(rest) == Some((day, afterComma)) && YearField(afterComma) == Some(year)
    requires 1 <= day <= 31 && 1 <= year <= 9999
    ensures |w1| > 0 && AllSpace(w1) && |w2| > 0 && AllSpace(w2)
    ensures rest == w1 + (DayText(day, padded) + "," + (w2 + Pad4(year)))
  {
    DayFieldParts(rest);
    YearFieldParts(afterComma);
    var w := SpaceRun(rest);
    var n := DayLength(rest[w..]);
    var v := SpaceRun(afterComma);
    var dayDigits, yearDigits := rest[w..][..n], afterComma[v..];
    w1, padded, w2 := rest[..w], n == 2, afterComma[..v];
    DayTextOf(day, dayDigits);
    DigitsUnique(yearDigits, Pad4(year));
    var dt, y := DayText(day, padded), Pad4(year);
    assert rest == w1 + dt + "," + afterComma;
    assert afterComma == w2 + y;
    AppendAssoc(w1, dt + ",", w2 + y);
    AppendAssoc(w1, dt, ",");
  }

  lemma FoundMonth(key: string, month: int)
    requires FindMonth(key, 0) == Some(month)
    ensures 1 <= month <= 12 && MonthKeys[month - 1] == key
  {
  }

  /** What a successful parse found in each field of its input. */
  lemma ParseFields(s: string, d: Date)
    requires ParseEnglishDate(s) == Some(d)
    ensures var t := WordRun(s);
      && FindMonth(LowerAscii(s[..t]), 0) == Some(d.month)
      && DayField(s[t..]).Some? && DayField(s[t..]).value.0 == d.day
      && YearField(DayField(s[t..]).value.1) == Some(d.year)
  {
  }

  /** The month token and the rest a successful parse splits its input into. */
  lemma ParsePieces(s: string, d: Date) returns (monthText: string, rest: string, afterComma: string)
    requires ParseEnglishDate(s) == Some(d)
    ensures s == monthText + rest
    ensures LowerAscii(monthText) == MonthKeys[d.month - 1]
    ensures DayField(rest) == Some((d.day, afterComma)) && YearField(afterComma) == Some(d.year)
  {
    ParseFields(s, d);
    var t := WordRun(s);
    monthText, rest := s[..t], s[t..];
    SplitAt(s, t);
    FoundMonth(LowerAscii(monthText), d.month);
    afterComma := DayField(rest).value.1;
  }

  /** Only the site's way of writing a date parses: a successful parse read a month
      name in some letter case, whitespace, the day with or without a leading zero,
      a comma, whitespace and the four-digit year of the date it returns. */
  lemma ParseEnglishDateOnlyRenderings(s: string, d: Date)
    requires ParseEnglishDate(s) == Some(d)
    ensures exists monthText, w1, padded, w2 ::
              && LowerAscii(monthText) == MonthKeys[d.month - 1]
              && |w1| > 0 && AllSpace(w1) && |w2| > 0 && AllSpace(w2)
              && s == monthText + w1 + DayText(d.day, padded) + "," + w2 + Pad4(d.year)
  {
    var monthText, rest, afterComma := ParsePieces(s, d);
    var w1, padded, w2 := DayAndYearParts(rest, d.day, afterComma, d.year);
    ConcatParts(s, monthText, w1, DayText(d.day, padded), w2, Pad4(d.year));
    assert LowerAscii(monthText) == MonthKeys[d.month - 1] && AllSpace(w1) && AllSpace(w2);
  }

  lemma ConcatParts(s: string, a: string, b: string, c: string, e: string, f: string)
    requires s == a + (b + (c + "," + (e + f)))
    ensures s == a + b + c + "," + e + f
  {
    AppendAssoc(a, b, c + "," + (e + f));
    AppendAssoc(a + b, c + ",", e + f);
    AppendAssoc(a + b, c, ",");
    AppendAssoc(a + b + c + ",", e, f);
  }

  const RatedOn: string := "Rated on "

  /** `tag.string[9:].strip()`: the text after "Rated on ", without surrounding whitespace. */
  function AfterRatedOn(s: string): (r: string)
    ensures Trimmed(r)
    ensures |s| <= |RatedOn| ==> r == ""
    ensures |s| > |RatedOn| ==> exists i :: (|RatedOn| <= i <= |s| - |r| && r == s[i..i + |r|]
      && AllSpace(s[|RatedOn|..i]) && AllSpace(s[i + |r|..]))
  {
    if |s| <= |RatedOn| then Strip("")
    else
      StripOfSuffix(s, |RatedOn|);
      Strip(s[|RatedOn|..])
  }

  lemma AfterRatedOnOf(prefix: string, w1: string, e: string, w2: string)
    requires |prefix| == |RatedOn| && AllSpace(w1) && AllSpace(w2) && Trimmed(e) && |e| > 0
    ensures AfterRatedOn(prefix + w1 + e + w2) == e
  {
    var s := prefix + w1 + e + w2;
    assert s[|RatedOn|..] == w1 + e + w2;
    StripSurrounded(w1, e, w2);
  }

  /** `get_date(tag, "en")`: cut the first nine characters (the length of
      "Rated on ", whatever they are), strip, parse and render as ISO.
      `None` in stands for `tag.string` being `None`; `None` out for the
      exception the function then raises. */
  function GetDate(tagString: Option<string>): (r: Option<string>)
    ensures r.Some? ==> ParseIso(r.value).Some? && ValidDate(ParseIso(r.value).value)
    ensures r.Some? ==> FormatIso(ParseIso(r.value).value) == r.value
    ensures tagString.None? ==> r.None?
    ensures tagString.Some? ==> (r.Some? <==> ParseEnglishDate(AfterRatedOn(tagString.value)).Some?)
    ensures tagString.Some? && r.Some? ==> ParseIso(r.value) == ParseEnglishDate(AfterRatedOn(tagString.value))
  {
    match tagString
    case None => None
    case Some(s) =>
      match ParseEnglishDate(AfterRatedOn(s))
      case None => None
      case Some(d) =>
        IsoRoundTrip(d);
        Some(FormatIso(d))
  }

  /** Whatever the first nine characters are, a date written as the site
      writes it, with any whitespace around it, comes out in ISO form. */
  lemma GetDateRendering(prefix: string, w1: string, d: Date, w2: string)
    requires |prefix| == |RatedOn| && AllSpace(w1) && AllSpace(w2) && ValidDate(d)
    ensures GetDate(Some(prefix + w1 + EnglishDate(d) + w2)) == Some(FormatIso(d))
  {
    EnglishDateShape(d);
    AfterRatedOnOf(prefix, w1, EnglishDate(d), w2);
    ParseEnglishRoundTrip(d);
  }

  lemma SampleDate()
    ensures ValidDate(Date(2021, 1, 5))
    ensures EnglishDate(Date(2021, 1, 5)) == "January 5, 2021"
    ensures FormatIso(Date(2021, 1, 5)) == "2021-01-05"
  {
    var y := Pad4(2021);
    assert y == Pad2(20) + [DigitChar(2)] + [DigitChar(1)];
    assert Pad2(20) == "20";
    assert y == "2021";
    assert DayText(5, false) == "5";
    assert Pad2(1) == "01" && Pad2(5) == "05";
  }

  lemma GetDateExample()
    ensures GetDate(Some("Rated on January 5, 2021")) == Some("2021-01-05")
  {
    var d := Date(2021, 1, 5);
    SampleDate();
    assert "Rated on January 5, 2021" == RatedOn + "" + EnglishDate(d) + "";
    GetDateRendering(RatedOn, "", d, "");
  }

  /** `re.search(r"Rated on (.+)", text)` matches starting at `i`: the words,
      then at least one character that is not a newline. */
  predicate MatchesAt(text: string, i: int) {
    0 <= i && i + |RatedOn| < |text| && text[i..i + |RatedOn|] == RatedOn && text[i + |RatedOn|] != '\n'
  }

  /** The search finds a match somewhere in `text`. */
  ghost predicate HasRatedOn(text: string) {
    exists i :: MatchesAt(text, i)
  }

  /** The first newline at or after `from`, or the end of `text`: where the greedy `(.+)` stops. */
  function LineEnd(text: string, from: nat): (k: nat)
    requires from <= |text|
    decreases |text| - from
    ensures from <= k <= |text|
    ensures k < |text| ==> text[k] == '\n'
    ensures forall i :: from <= i < k ==> text[i] != '\n'
  {
    if from == |text| || text[from] == '\n' then from else LineEnd(text, from + 1)
  }

  /** The leftmost position at or after `from` where the search matches. */
  function FirstMatch(text: string, from: nat): (r: Option<nat>)
    decreases |text| - from
    ensures r.Some? ==> from <= r.value && MatchesAt(text, r.value)
    ensures r.Some? ==> forall i :: from <= i < r.value ==> !MatchesAt(text, i)
    ensures r.None? ==> forall i :: from <= i ==> !MatchesAt(text, i)
  {
    if from + |RatedOn| >= |text| then None
    else if MatchesAt(text, from) then Some(from)
    else FirstMatch(text, from + 1)
  }

  /** `match.group(1)`: from just after the leftmost "Rated on " to the end of its line. */
  function RatedOnGroup(text: string): (r: Option<string>)
    ensures r.None? <==> !HasRatedOn(text)
    ensures r.Some? ==> |r.value| > 0 && forall i :: 0 <= i < |r.value| ==> r.value[i] != '\n'
    ensures r.Some? ==> exists i :: (MatchesAt(text, i) && (forall j :: 0 <= j < i ==> !MatchesAt(text, j))
      && i + |RatedOn| + |r.value| <= |text| && text[i + |RatedOn|..i + |RatedOn| + |r.value|] == r.value
      && (i + |RatedOn| + |r.value| == |text| || text[i + |RatedOn| + |r.value|] == '\n'))
  {
    match FirstMatch(text, 0)
    case None => None
    case Some(i) =>
      var k := LineEnd(text, i + |RatedOn|);
      var g := text[i + |RatedOn|..k];
      assert forall j :: 0 <= j < |g| ==> g[j] == text[i + |RatedOn| + j];
      assert i + |RatedOn| + |g| == k;
      assert text[i + |RatedOn|..i + |RatedOn| + |g|] == g;
      assert MatchesAt(text, i) && forall j :: 0 <= j < i ==> !MatchesAt(text, j);
      Some(g)
  }

  /** The date `get_data` records for one header: the ISO date when the text
      after "Rated on " parses, that text verbatim when it does not, and the
      empty string when the header has no "Rated on " followed by something. */
  function HeaderDate(text: string): (r: string)
    ensures RatedOnGroup(text).None? ==> r == ""
    ensures RatedOnGroup(text).Some? && ParseEnglishDate(RatedOnGroup(text).value).Some? ==>
      ParseIso(r) == ParseEnglishDate(RatedOnGroup(text).value)
    ensures RatedOnGroup(text).Some? && ParseEnglishDate(RatedOnGroup(text).value).None? ==>
      r == RatedOnGroup(text).value
  {
    match RatedOnGroup(text)
    case None => ""
    case Some(g) =>
      match ParseEnglishDate(g)
      case Some(d) =>
        IsoRoundTrip(d);
        FormatIso(d)
      case None => g
  }

  /** A header's date is empty exactly when its text has no "Rated on " match. */
  lemma HeaderDateEmpty(text: string)
    ensures HeaderDate(text) == "" <==> !HasRatedOn(text)
  {
    match RatedOnGroup(text)
    case None =>
    case Some(g) =>
      match ParseEnglishDate(g)
      case Some(d) =>
        assert |FormatIso(d)| == 10;
      case None =>
  }

  /** The search finds "Rated on " at the start and takes the rest of the line. */
  lemma RatedOnGroupOf(x: string)
    requires |x| > 0 && forall i :: 0 <= i < |x| ==> x[i] != '\n'
    ensures RatedOnGroup(RatedOn + x) == Some(x)
  {
    var text := RatedOn + x;
    assert text[..|RatedOn|] == RatedOn;
    assert text[|RatedOn|] == x[0];
    assert MatchesAt(text, 0);
    assert FirstMatch(text, 0) == Some(0);
    forall i | |RatedOn| <= i < |text| ensures text[i] != '\n' {
      assert text[i] == x[i - |RatedOn|];
    }
    assert LineEnd(text, |RatedOn|) == |text|;
    assert text[0 + |RatedOn|..|text|] == x;
  }

  /** A header reading "Rated on " and then one line of text gets that text's
      ISO date when it parses as "Month D, YYYY", and the text itself when not. */
  lemma HeaderDateOfLine(x: string)
    requires |x| > 0 && forall i :: 0 <= i < |x| ==> x[i] != '\n'
    ensures ParseEnglishDate(x).Some? ==> HeaderDate(RatedOn + x) == FormatIso(ParseEnglishDate(x).value)
    ensures ParseEnglishDate(x).None? ==> HeaderDate(RatedOn + x) == x
  {
    RatedOnGroupOf(x);
  }

  lemma HeaderDateRendering(d: Date)
    requires ValidDate(d)
    ensures HeaderDate(RatedOn + EnglishDate(d)) == FormatIso(d)
  {
    EnglishDateShape(d);
    RatedOnGroupOf(EnglishDate(d));
    ParseEnglishRoundTrip(d);
  }

  lemma HeaderDateExample()
    ensures HeaderDate("Rated on January 5, 2021") == "2021-01-05"
  {
    var d := Date(2021, 1, 5);
    SampleDate();
    var text := "Rated on January 5, 2021";
    assert text == RatedOn + EnglishDate(d);
    HeaderDateRendering(d);
  }

  /** No month key starts with 'u'. */
  lemma NoMonthStartsWithU(key: string)
    requires |key| > 0 && key[0] == 'u'
    ensures FindMonth(key, 0) == None
  {
    forall k | 0 <= k < 12 ensures MonthKeys[k] != key {
      MonthKey(k);
    }
  }

  lemma LettersWordRun(s: string)
    requires forall i :: 0 <= i < |s| ==> IsLetter(s[i])
    ensures WordRun(s) == |s|
  {
    if WordRun(s) < |s| {
      assert IsLetter(s[WordRun(s)]);
    }
  }

  lemma UnknownWord()
    ensures WordRun("Unknown") == 7
    ensures LowerAscii("Unknown")[0] == 'u'
  {
    LettersWordRun("Unknown");
  }

  lemma UnknownIsNoDate()
    ensures ParseEnglishDate("Unknown") == None
  {
    UnknownWord();
    assert "Unknown"[..7] == "Unknown";
    NoMonthStartsWithU(LowerAscii("Unknown"));
  }

  lemma HeaderDateFallbackExample()
    ensures HeaderDate("Rated on Unknown") == "Unknown"
  {
    RatedOnGroupOf("Unknown");
    assert "Rated on Unknown" == RatedOn + "Unknown";
    UnknownIsNoDate();
  }
}

=== FILE: film_tags.dfy ===
/** The two helpers of export.py that read one film tag: `get_directors`
    and `is_film`. The markup lookups are done by the caller: a director
    container is given as the `title` attributes of its name links, a film
    as the text of its title link. */
module FilmTags {

  import opened Wrappers
  import opened Text

  const Creator: string := "(Creator)"

  /** `get_directors` as written. `containers` are the `mc-director`
      elements of the tag, each given as its names in document order; with
      none, the `[0]` index raises and the result is `None`. The loop meant
      to cut the " (Creator)" suffix only rebinds its loop variable, so the
      names are joined unchanged. */
  method GetDirectors(containers: seq<seq<string>>) returns (r: Option<string>)
    ensures containers == [] ==> r == None
    ensures containers != [] ==> r == Some(JoinNames(containers[0]))
  {
    if |containers| == 0 {
      return None;
    }
    var directors := containers[0];
    for i := 0 to |directors| {
      var director := directors[i];
      if EndsWith(director, Creator) {
        director := if |director| >= 10 then director[..|director| - 10] else "";
      }
    }
    r := Some(JoinNames(directors));
  }

  /** A director credited as creator keeps the suffix the loop was meant to remove. */
  method CreatorSuffixKept() returns (r: Option<string>)
    ensures r == Some("Matt Groening (Creator)")
  {
    r := GetDirectors([["Matt Groening (Creator)"]]);
  }

  /** What the loop evidently meant: `director[:-10]`, that is, drop " (Creator)". */
  function TrimCreator(name: string): (r: string)
    ensures EndsWith(name, " (Creator)") ==> name == r + " (Creator)"
    ensures !EndsWith(name, Creator) ==> r == name
  {
    if EndsWith(name, " (Creator)") then
      var n := |name|;
      assert name[n - 9..] == name[n - 10..][1..];
      assert name[..n - 10] + name[n - 10..] == name;
      name[..n - 10]
    else if EndsWith(name, Creator) then
      (if |name| >= 10 then name[..|name| - 10] else "")
    else name
  }

  /** The names after the corrected loop has trimmed each of them. */
  function TrimmedNames(names: seq<string>): seq<string> {
    seq(|names|, k requires 0 <= k < |names| => TrimCreator(names[k]))
  }

  /** `get_directors` with the loop writing each trimmed name back into the list. */
  method GetDirectorsTrimmed(containers: seq<seq<string>>) returns (r: Option<string>)
    ensures containers == [] ==> r == None
    ensures containers != [] ==> r == Some(JoinNames(TrimmedNames(containers[0])))
  {
    if |containers| == 0 {
      return None;
    }
    var directors := containers[0];
    for i := 0 to |directors|
      invariant |directors| == |containers[0]|
      invariant forall k :: 0 <= k < i ==> directors[k] == TrimCreator(containers[0][k])
      invariant forall k :: i <= k < |directors| ==> directors[k] == containers[0][k]
    {
      directors := directors[i := TrimCreator(directors[i])];
    }
    assert directors == TrimmedNames(containers[0]);
    r := Some(JoinNames(directors));
  }

  /** Splitting the corrected result on ", " gives back every name with " (Creator)" removed. */
  lemma TrimmedDirectorsSplit(names: seq<string>)
    requires |names| > 0 && forall k :: 0 <= k < |names| ==> NoComma(names[k])
    ensures var parts := SplitNames(JoinNames(TrimmedNames(names)));
      && |parts| == |names|
      && forall k :: 0 <= k < |names| && EndsWith(names[k], " (Creator)") ==> names[k] == parts[k] + " (Creator)"
  {
    var trimmed := TrimmedNames(names);
    forall k | 0 <= k < |names| ensures NoComma(trimmed[k]) {
      if EndsWith(names[k], Creator) && |names[k]| >= 10 {
        assert forall i :: 0 <= i < |trimmed[k]| ==> trimmed[k][i] == names[k][i];
      }
    }
    SplitJoinNames(trimmed);
  }

  const EnglishSkip: seq<string> := ["(TV Series)", "(TV Miniseries)", "(TV)", "(S)"]
  const SpanishSkip: seq<string> := ["(Serie de TV)", "(Miniserie de TV)", "(TV)", "(C)"]

  /** The title suffixes that mark a non-film entry in the given site language. */
  function SkipList(lang: string): (r: seq<string>)
    ensures |r| == 4 && r[2] == "(TV)"
    ensures forall k :: 0 <= k < |r| ==> 3 <= |r[k]| && r[k][0] == '(' && r[k][|r[k]| - 1] == ')'
  {
    if lang == "es" then SpanishSkip else EnglishSkip
  }

  /** `any(map(s.endswith, suffixes))`. */
  function AnyEndsWith(s: string, suffixes: seq<string>): (r: bool)
    ensures r <==> exists k :: 0 <= k < |suffixes| && EndsWith(s, suffixes[k])
  {
    if |suffixes| == 0 then false
    else EndsWith(s, suffixes[0]) || AnyEndsWith(s, suffixes[1..])
  }

  /** `is_film`: false exactly when the stripped title ends with one of the
      language's four skip suffixes; any language but "es" uses the English list. */
  function IsFilm(title: string, lang: string): (r: bool)
    ensures !r <==> exists k :: 0 <= k < 4 && EndsWith(Strip(title), SkipList(lang)[k])
  {
    !AnyEndsWith(Strip(title), SkipList(lang))
  }

  lemma EndsWithAppend(x: string, suffix: string)
    ensures EndsWith(x + suffix, suffix)
  {
    assert (x + suffix)[|x|..] == suffix;
  }

  lemma EndsWithPenultimate(s: string, suffix: string)
    requires |suffix| >= 2
    ensures EndsWith(s, suffix) ==> s[|s| - 2] == suffix[|suffix| - 2]
  {
    if EndsWith(s, suffix) {
      assert s[|s| - |suffix|..][|suffix| - 2] == s[|s| - 2];
    }
  }

  /** A trimmed title with the list's `k`-th suffix is not a film. */
  lemma NotFilmBySuffix(title: string, lang: string, k: nat, w: string)
    requires k < 4 && Trimmed(title) && EndsWith(title, SkipList(lang)[k]) && AllSpace(w)
    ensures !IsFilm(title + w, lang)
  {
    StripSurrounded("", title, w);
    assert "" + title + w == title + w;
  }

  lemma SeriesIsNotFilm()
    ensures !IsFilm("The Simpsons (TV Series)", "en")
  {
    var a := "The Simpsons ";
    EndsWithAppend(a, EnglishSkip[0]);
    assert a + EnglishSkip[0] + "" == "The Simpsons (TV Series)";
    NotFilmBySuffix(a + EnglishSkip[0], "en", 0, "");
  }

  /** A trimmed title that ends with none of the list's suffixes is a film. */
  lemma FilmWithoutSuffix(title: string, lang: string)
    requires Trimmed(title)
    requires forall k :: 0 <= k < 4 ==> !EndsWith(title, SkipList(lang)[k])
    ensures IsFilm(title, lang)
  {
    StripSurrounded("", title, "");
    assert "" + title + "" == title;
  }

  /** A trimmed title whose next-to-last character differs from that of every suffix in the list is a film. */
  lemma FilmByPenultimate(title: string, lang: string)
    requires Trimmed(title) && |title| >= 2
    requires forall k :: 0 <= k < 4 ==> SkipList(lang)[k][|SkipList(lang)[k]| - 2] != title[|title| - 2]
    ensures IsFilm(title, lang)
  {
    forall k | 0 <= k < 4 ensures !EndsWith(title, SkipList(lang)[k]) {
      EndsWithPenultimate(title, SkipList(lang)[k]);
    }
    FilmWithoutSuffix(title, lang);
  }

  lemma SeriesIsFilmInSpanish()
    ensures IsFilm("The Simpsons (TV Series)", "es")
  {
    var a := "The Simpsons (TV Series)";
    assert a[|a| - 2] == 's';
    assert SkipList("es") == SpanishSkip;
    FilmByPenultimate(a, "es");
  }

  lemma ShortIsNotFilm()
    ensures !IsFilm("Paperman (S) ", "fr")
  {
    var a := "Paperman ";
    EndsWithAppend(a, EnglishSkip[3]);
    assert a + EnglishSkip[3] + " " == "Paperman (S) ";
    NotFilmBySuffix(a + EnglishSkip[3], "fr", 3, " ");
  }
}

=== FILE: scraper.dfy ===
/** `get_data` of export.py: the page loop, the watched-date headers of each
    page, and the record built from each rating row. A fetched page is given
    as its status code with its rows and headers already located; each
    markup element the code looks up is an `Option` holding its stripped text. */
module Scraper {

  import opened Wrappers
  import opened Text
  import Dates

  /** The `col-2` column of a row, holding the user's own rating box. */
  datatype RatingColumn = RatingColumn(ratingBox: Option<string>)

  /** The `user-ratings-movie-item` of a row: title, year, average rating,
      the texts of the links in the director container, and the credits. */
  datatype MovieItem = MovieItem(
    title: Option<string>,
    year: Option<string>,
    avgRating: Option<string>,
    directorLinks: Option<seq<string>>,
    credits: Option<string>)

  /** One `row mb-4` element and the source line the parser gives it. */
  datatype Row = Row(line: Option<nat>, column: Option<RatingColumn>, item: Option<MovieItem>)

  /** One `user-ratings-header` element: its source line and its text. */
  datatype Header = Header(line: Option<nat>, text: string)

  /** One fetched page. */
  datatype Page = Page(status: int, rows: seq<Row>, headers: seq<Header>)

  /** A header's source line paired with the date read from its text. */
  datatype DatedHeader = DatedHeader(line: Option<nat>, date: string)

  /** One exported record, with the fields in the order the dictionary builds them. */
  datatype Film = Film(
    title: string,
    year: string,
    userRating: string,
    avgRating: string,
    watchedDate: string,
    directors: string,
    actors: string)

  const NoTitle: string := "(No title)"
  const StatusOk: int := 200

  /** A source line counts only when it is truthy in Python: present and not 0. */
  predicate Known(line: Option<nat>) {
    line.Some? && line.value != 0
  }

  /** The reverse scan takes a header that precedes the row by source line, or
      any header without a usable source line. */
  predicate Qualifies(h: DatedHeader, rowLine: Option<nat>) {
    || (Known(h.line) && Known(rowLine) && h.line.value < rowLine.value)
    || !Known(h.line)
  }

  /** The date of the last qualifying header, or "" when none qualifies. */
  function WatchedDateOf(hd: seq<DatedHeader>, rowLine: Option<nat>): string {
    if |hd| == 0 then ""
    else if Qualifies(hd[|hd| - 1], rowLine) then hd[|hd| - 1].date
    else WatchedDateOf(hd[..|hd| - 1], rowLine)
  }

  lemma {:induction false} WatchedDateIsLastQualifying(hd: seq<DatedHeader>, rowLine: Option<nat>, k: nat)
    requires k < |hd| && Qualifies(hd[k], rowLine)
    requires forall j :: k < j < |hd| ==> !Qualifies(hd[j], rowLine)
    ensures WatchedDateOf(hd, rowLine) == hd[k].date
  {
    if k < |hd| - 1 {
      WatchedDateIsLastQualifying(hd[..|hd| - 1], rowLine, k);
    }
  }

  lemma {:induction false} WatchedDateEmptyWhenNoneQualifies(hd: seq<DatedHeader>, rowLine: Option<nat>)
    requires forall j :: 0 <= j < |hd| ==> !Qualifies(hd[j], rowLine)
    ensures WatchedDateOf(hd, rowLine) == ""
  {
    if |hd| > 0 {
      WatchedDateEmptyWhenNoneQualifies(hd[..|hd| - 1], rowLine);
    }
  }

  /** A row without a usable source line gets the date of the last header that
      also lacks one, or "" when every header has one. */
  lemma RowWithoutLine(hd: seq<DatedHeader>, rowLine: Option<nat>)
    requires !Known(rowLine)
    ensures (forall j :: 0 <= j < |hd| ==> Known(hd[j].line)) ==> WatchedDateOf(hd, rowLine) == ""
    ensures forall k ::
              0 <= k < |hd| && !Known(hd[k].line) && (forall j :: k < j < |hd| ==> Known(hd[j].line))
              ==> WatchedDateOf(hd, rowLine) == hd[k].date
  {
    if forall j :: 0 <= j < |hd| ==> Known(hd[j].line) {
      WatchedDateEmptyWhenNoneQualifies(hd, rowLine);
    }
    forall k | 0 <= k < |hd| && !Known(hd[k].line) && (forall j :: k < j < |hd| ==> Known(hd[j].line))
      ensures WatchedDateOf(hd, rowLine) == hd[k].date
    {
      WatchedDateIsLastQualifying(hd, rowLine, k);
    }
  }

  /** The reverse scan over `header_dates` that stops at the first qualifying header. */
  method FindWatchedDate(hd: seq<DatedHeader>, rowLine: Option<nat>) returns (date: string)
    ensures date == WatchedDateOf(hd, rowLine)
  {
    date := "";
    var k := |hd|;
    assert hd[..k] == hd;
    while k > 0
      invariant 0 <= k <= |hd|
      invariant date == ""
      invariant WatchedDateOf(hd, rowLine) == WatchedDateOf(hd[..k], rowLine)
    {
      k := k - 1;
      assert hd[..k + 1][..k] == hd[..k];
      var h := hd[k];
      if Known(h.line) && Known(rowLine) && h.line.value < rowLine.value {
        date := h.date;
        break;
      } else if !Known(h.line) {
        date := h.date;
        break;
      }
    }
  }

  /** The entry `header_dates` gets for one header. */
  function DateHeader(h: Header): DatedHeader {
    DatedHeader(h.line, Dates.HeaderDate(h.text))
  }

  /** `header_dates`: each header's source line with the date read from its text, in document order. */
  function HeaderDatesOf(headers: seq<Header>): seq<DatedHeader> {
    seq(|headers|, i requires 0 <= i < |headers| => DateHeader(headers[i]))
  }

  /** The loop that fills `header_dates`, one header at a time. */
  method CollectHeaderDates(headers: seq<Header>) returns (hd: seq<DatedHeader>)
    ensures hd == HeaderDatesOf(headers)
  {
    hd := [];
    for i := 0 to |headers|
      invariant |hd| == i
      invariant hd == HeaderDatesOf(headers)[..i]
    {
      hd := hd + [DateHeader(headers[i])];
    }
  }

  /** The text of a sub-element, or "" when it is absent. */
  function TextOrEmpty(e: Option<string>): string {
    e.GetOr("")
  }

  /** The user's rating: the rating box inside `col-2`, "" when either is absent. */
  function UserRating(column: Option<RatingColumn>): string {
    if column.Some? then TextOrEmpty(column.value.ratingBox) else ""
  }

  /** The director links joined by ", ", or "" when the container is absent. */
  function DirectorsText(links: Option<seq<string>>): string {
    if links.Some? then JoinNames(links.value) else ""
  }

  /** The record for one row, or `None` when the row has no movie item and is skipped. */
  function RowFilm(row: Row, hd: seq<DatedHeader>): (r: Option<Film>)
    ensures r.None? <==> row.item.None?
    ensures r.Some? ==> (r.value.title == "" <==> row.item.value.title == Some(""))
    ensures r.Some? ==> r.value.watchedDate == WatchedDateOf(hd, row.line)
  {
    match row.item
    case None => None
    case Some(it) =>
      Some(Film(
        title := it.title.GetOr(NoTitle),
        year := TextOrEmpty(it.year),
        userRating := UserRating(row.column),
        avgRating := TextOrEmpty(it.avgRating),
        watchedDate := WatchedDateOf(hd, row.line),
        directors := DirectorsText(it.directorLinks),
        actors := TextOrEmpty(it.credits)))
  }

  /** Each field of a record falls back on its own: the title to "(No title)",
      the others to "", and only when that field's own sub-element is absent. */
  lemma FieldDefaults(row: Row, hd: seq<DatedHeader>)
    requires row.item.Some?
    ensures var f, it := RowFilm(row, hd).value, row.item.value;
      && (it.title.None? ==> f.title == NoTitle)
      && (it.title.Some? ==> f.title == it.title.value)
      && (it.year.Some? ==> f.year == it.year.value)
      && (row.column.Some? && row.column.value.ratingBox.Some? ==> f.userRating == row.column.value.ratingBox.value)
      && (it.avgRating.Some? ==> f.avgRating == it.avgRating.value)
      && (it.credits.Some? ==> f.actors == it.credits.value)
      && (f.year == "" <==> it.year.None? || it.year.value == "")
      && (f.userRating == "" <==> row.column.None? || row.column.value.ratingBox.None? || row.column.value.ratingBox.value == "")
      && (f.avgRating == "" <==> it.avgRating.None? || it.avgRating.value == "")
      && (f.actors == "" <==> it.credits.None? || it.credits.value == "")
      && (it.directorLinks.None? ==> f.directors == "")
      && (it.directorLinks.Some? ==> f.directors == JoinNames(it.directorLinks.value))
  {
  }

  /** Removing one sub-element from a movie item changes only its own field. */
  lemma MissingElementChangesOneField(row: Row, hd: seq<DatedHeader>)
    requires row.item.Some?
    ensures var f, it := RowFilm(row, hd).value, row.item.value;
      && RowFilm(row.(item := Some(it.(title := None))), hd) == Some(f.(title := NoTitle))
      && RowFilm(row.(item := Some(it.(year := None))), hd) == Some(f.(year := ""))
      && RowFilm(row.(column := None), hd) == Some(f.(userRating := ""))
      && RowFilm(row.(item := Some(it.(avgRating := None))), hd) == Some(f.(avgRating := ""))
      && RowFilm(row.(item := Some(it.(directorLinks := None))), hd) == Some(f.(directors := ""))
      && RowFilm(row.(item := Some(it.(credits := None))), hd) == Some(f.(actors := ""))
  {
  }

  /** The records of `rows`, in row order, skipping rows without a movie item. */
  function RowsFilms(rows: seq<Row>, hd: seq<DatedHeader>): seq<Film> {
    if |rows| == 0 then []
    else
      var last := RowFilm(rows[|rows| - 1], hd);
      RowsFilms(rows[..|rows| - 1], hd) + (if last.Some? then [last.value] else [])
  }

  /** A page yields at most one record per row, and exactly one per row when no row is skipped. */
  lemma {:induction false} RowsFilmsCount(rows: seq<Row>, hd: seq<DatedHeader>)
    ensures |RowsFilms(rows, hd)| <= |rows|
    ensures |RowsFilms(rows, hd)| == |rows| <==> forall j :: 0 <= j < |rows| ==> rows[j].item.Some?
  {
    if |rows| > 0 {
      var init := rows[..|rows| - 1];
      RowsFilmsCount(init, hd);
      if forall j :: 0 <= j < |rows| ==> rows[j].item.Some? {
        assert forall j :: 0 <= j < |init| ==> init[j] == rows[j];
      } else if forall j :: 0 <= j < |init| ==> init[j].item.Some? {
        assert forall j :: 0 <= j < |init| ==> init[j] == rows[j];
      }
    }
  }

  /** Every record of a page comes from one of its rows. */
  lemma {:induction false} RowsFilmsOrigin(rows: seq<Row>, hd: seq<DatedHeader>, f: Film)
    requires f in RowsFilms(rows, hd)
    ensures exists j :: 0 <= j < |rows| && RowFilm(rows[j], hd) == Some(f)
  {
    var init := rows[..|rows| - 1];
    if f in RowsFilms(init, hd) {
      RowsFilmsOrigin(init, hd, f);
      var j :| 0 <= j < |init| && RowFilm(init[j], hd) == Some(f);
      assert init[j] == rows[j];
    } else {
      assert RowFilm(rows[|rows| - 1], hd) == Some(f);
    }
  }

  function PageFilms(page: Page): seq<Film> {
    RowsFilms(page.rows, HeaderDatesOf(page.headers))
  }

  /** One pass of the loop body: read the header dates, then walk the rows,
      skipping those without a movie item. */
  method ProcessPage(page: Page) returns (films: seq<Film>)
    ensures films == PageFilms(page)
  {
    var hd := CollectHeaderDates(page.headers);
    films := [];
    var i := 0;
    while i < |page.rows|
      invariant 0 <= i <= |page.rows|
      invariant films == RowsFilms(page.rows[..i], hd)
    {
      var row := page.rows[i];
      assert page.rows[..i + 1][..i] == page.rows[..i];
      var userRating := UserRating(row.column);
      if row.item.None? {
        i := i + 1;
        continue;
      }
      var it := row.item.value;
      var watchedDate := FindWatchedDate(hd, row.line);
      var film := Film(
        title := it.title.GetOr(NoTitle),
        year := TextOrEmpty(it.year),
        userRating := userRating,
        avgRating := TextOrEmpty(it.avgRating),
        watchedDate := watchedDate,
        directors := DirectorsText(it.directorLinks),
        actors := TextOrEmpty(it.credits));
      films := films + [film];
      i := i + 1;
    }
    assert page.rows[..|page.rows|] == page.rows;
  }

  /** The loop ends after a page whose status is not 200 or which has no rows. */
  predicate Stops(page: Page) {
    page.status != StatusOk || |page.rows| == 0
  }

  /** The index of the first page at or after `from` that ends the loop. */
  function FirstStop(pages: seq<Page>, from: nat): (r: Option<nat>)
    decreases |pages| - from
    ensures r.Some? ==> from <= r.value < |pages| && Stops(pages[r.value])
    ensures r.Some? ==> forall j :: from <= j < r.value ==> !Stops(pages[j])
    ensures r.None? ==> forall j :: from <= j < |pages| ==> !Stops(pages[j])
  {
    if from >= |pages| then None
    else if Stops(pages[from]) then Some(from)
    else FirstStop(pages, from + 1)
  }

  /** The records of the first `k` pages, page after page. */
  function Scraped(pages: seq<Page>, k: nat): seq<Film>
    requires k <= |pages|
  {
    if k == 0 then [] else Scraped(pages, k - 1) + PageFilms(pages[k - 1])
  }

  /** `get_data`: requests pages 1, 2, 3, ... and appends each page's records,
      stopping right after the first page that is not 200 or has no rows; the
      records of that last page are kept. Page number `n` is answered by
      `pages[n - 1]`; the source loops for ever when no page stops. */
  method GetData(pages: seq<Page>) returns (data: seq<Film>, requested: seq<nat>)
    requires exists i :: 0 <= i < |pages| && Stops(pages[i])
    ensures 1 <= |requested| <= |pages|
    ensures forall i :: 0 <= i < |requested| ==> requested[i] == i + 1
    ensures Stops(pages[|requested| - 1])
    ensures forall i :: 0 <= i < |requested| - 1 ==> !Stops(pages[i])
    ensures data == Scraped(pages, |requested|)
  {
    ghost var stop := FirstStop(pages, 0).value;
    data := [];
    requested := [];
    var eof := false;
    var n := 1;
    while !eof
      invariant 1 <= n <= stop + 2
      invariant eof <==> n == stop + 2
      invariant |requested| == n - 1
      invariant forall i :: 0 <= i < n - 1 ==> requested[i] == i + 1
      invariant data == Scraped(pages, n - 1)
      decreases stop + 2 - n
    {
      var page := pages[n - 1];
      requested := requested + [n];
      var films := ProcessPage(page);
      data := data + films;
      eof := page.status != StatusOk || |page.rows| == 0;
      n := n + 1;
    }
  }

  /** Records are only ever appended: the records of fewer pages are a prefix of those of more. */
  lemma {:induction false} ScrapedPrefix(pages: seq<Page>, i: nat, j: nat)
    requires i <= j <= |pages|
    ensures Scraped(pages, i) <= Scraped(pages, j)
  {
    if i < j {
      ScrapedPrefix(pages, i, j - 1);
    }
  }

  /** The records depend on the pages up to the stopping one only: whatever
      the later pages hold, they are never requested. */
  lemma {:induction false} ScrapedIgnoresLaterPages(pages: seq<Page>, other: seq<Page>, k: nat)
    requires k <= |pages| && k <= |other| && pages[..k] == other[..k]
    ensures Scraped(pages, k) == Scraped(other, k)
  {
    if k > 0 {
      assert pages[..k - 1] == pages[..k][..k - 1] && other[..k - 1] == other[..k][..k - 1];
      ScrapedIgnoresLaterPages(pages, other, k - 1);
      assert pages[k - 1] == pages[..k][k - 1];
      assert other[k - 1] == other[..k][k - 1];
    }
  }

  function RowCount(pages: seq<Page>, k: nat): nat
    requires k <= |pages|
  {
    if k == 0 then 0 else RowCount(pages, k - 1) + |pages[k - 1].rows|
  }

  /** No more records than rows were fetched. */
  lemma {:induction false} ScrapedCount(pages: seq<Page>, k: nat)
    requires k <= |pages|
    ensures |Scraped(pages, k)| <= RowCount(pages, k)
  {
    if k > 0 {
      ScrapedCount(pages, k - 1);
      PageFilmsCount(pages[k - 1]);
      assert |Scraped(pages, k)| == |Scraped(pages, k - 1)| + |PageFilms(pages[k - 1])|;
    }
  }

  lemma PageFilmsCount(page: Page)
    ensures |PageFilms(page)| <= |page.rows|
  {
    RowsFilmsCount(page.rows, HeaderDatesOf(page.headers));
  }

  /** Every record comes from a row, with a movie item, of a requested page. */
  lemma {:induction false} ScrapedOrigin(pages: seq<Page>, k: nat, f: Film)
    requires k <= |pages| && f in Scraped(pages, k)
    ensures exists i, j ::
              && 0 <= i < k && 0 <= j < |pages[i].rows|
              && RowFilm(pages[i].rows[j], HeaderDatesOf(pages[i].headers)) == Some(f)
  {
    if f in Scraped(pages, k - 1) {
      ScrapedOrigin(pages, k - 1, f);
    } else {
      RowsFilmsOrigin(pages[k - 1].rows, HeaderDatesOf(pages[k - 1].headers), f);
    }
  }

  /** Every record has a title unless the site gave a title element with no text. */
  lemma TitlesNonEmpty(pages: seq<Page>, k: nat)
    requires k <= |pages|
    requires forall i, j ::
               0 <= i < k && 0 <= j < |pages[i].rows| && pages[i].rows[j].item.Some?
               ==> pages[i].rows[j].item.value.title != Some("")
    ensures forall f :: f in Scraped(pages, k) ==> f.title != ""
  {
    forall f | f in Scraped(pages, k) ensures f.title != "" {
      ScrapedOrigin(pages, k, f);
    }
  }

  /** The records of the first two pages, whatever follows them. */
  lemma ScrapedTwo(pages: seq<Page>)
    requires 2 <= |pages|
    ensures Scraped(pages, 2) == PageFilms(pages[0]) + PageFilms(pages[1])
  {
    var first := PageFilms(pages[0]);
    assert Scraped(pages, 0) == [];
    assert [] + first == first;
    assert Scraped(pages, 1) == first;
  }

  /** Two pages, two rows then none: two records and no third request. */
  method TwoPageFixture(third: Page) returns (data: seq<Film>, requested: seq<nat>)
    ensures requested == [1, 2]
    ensures |data| == 2
  {
    var item := MovieItem(Some("Alien"), Some("1979"), None, None, None);
    var row := Row(Some(10), None, Some(item));
    var first := Page(StatusOk, [row, row], []);
    var pages := [first, Page(StatusOk, [], []), third];
    assert !Stops(pages[0]) && Stops(pages[1]);
    data, requested := GetData(pages);
    assert |requested| == 2;
    ScrapedTwo(pages);
    RowsFilmsCount(first.rows, HeaderDatesOf([]));
    assert |PageFilms(first)| == 2;
    assert PageFilms(pages[1]) == [];
  }

  /** A page that fails with rows still contributes them before the loop stops. */
  method FailedPageFixture(third: Page) returns (data: seq<Film>, requested: seq<nat>)
    ensures requested == [1, 2]
    ensures |data| == 2
    ensures data[1].title == "Brazil"
  {
    var alien := Row(Some(10), None, Some(MovieItem(Some("Alien"), None, None, None, None)));
    var brazil := Row(Some(10), None, Some(MovieItem(Some("Brazil"), None, None, None, None)));
    var pages := [Page(StatusOk, [alien], []), Page(500, [brazil], []), third];
    assert Stops(pages[1]);
    data, requested := GetData(pages);
    assert |requested| == 2;
    var hd := HeaderDatesOf([]);
    assert [alien][..0] == [] && [brazil][..0] == [];
    assert RowsFilms([alien], hd) == RowsFilms([], hd) + [RowFilm(alien, hd).value];
    assert RowsFilms([brazil], hd) == RowsFilms([], hd) + [RowFilm(brazil, hd).value];
    assert pages[0].rows == [alien] && pages[0].headers == [];
    assert PageFilms(pages[0]) == [RowFilm(alien, hd).value];
    assert PageFilms(pages[1]) == [RowFilm(brazil, hd).value];
    assert Scraped(pages, 2) == Scraped(pages, 1) + PageFilms(pages[1]);
  }
}

=== FILE: text.dfy ===
/** String helpers with Python's meaning: `str.isspace`, `str.strip`,
    `str.endswith`, ASCII case folding, decimal digits, and the `", ".join`
    that builds the director list. */
module Text {

  import opened Wrappers

  /** Python's `str.isspace()`; it is also the set `\s` matches in a `str` regular expression. */
  predicate IsSpace(c: char) {
    || ('\t' <= c <= '\r')
    || ('\U{1C}' <= c <= '\U{1F}')
    || c == ' '
    || c == '\U{85}'
    || c == '\U{A0}'
    || c == '\U{1680}'
    || ('\U{2000}' <= c <= '\U{200A}')
    || c == '\U{2028}'
    || c == '\U{2029}'
    || c == '\U{202F}'
    || c == '\U{205F}'
    || c == '\U{3000}'
  }

  predicate AllSpace(s: string) {
    forall i :: 0 <= i < |s| ==> IsSpace(s[i])
  }

  /** Length of the longest whitespace prefix of `s`. */
  function SpaceRun(s: string): (n: nat)
    ensures n <= |s|
    ensures forall i :: 0 <= i < n ==> IsSpace(s[i])
    ensures n < |s| ==> !IsSpace(s[n])
  {
    if |s| == 0 || !IsSpace(s[0]) then 0 else 1 + SpaceRun(s[1..])
  }

  /** Length of the longest prefix of `s` that holds no whitespace. */
  function WordRun(s: string): (n: nat)
    ensures n <= |s|
    ensures forall i :: 0 <= i < n ==> !IsSpace(s[i])
    ensures n < |s| ==> IsSpace(s[n])
  {
    if |s| == 0 || IsSpace(s[0]) then 0 else 1 + WordRun(s[1..])
  }

  /** Length of the longest whitespace suffix of `s`. */
  function TrailingSpace(s: string): (n: nat)
    ensures n <= |s|
    ensures forall i :: |s| - n <= i < |s| ==> IsSpace(s[i])
    ensures n < |s| ==> !IsSpace(s[|s| - 1 - n])
  {
    if |s| == 0 || !IsSpace(s[|s| - 1]) then 0 else 1 + TrailingSpace(s[..|s| - 1])
  }

  /** True when `s` has no whitespace at either end. */
  predicate Trimmed(s: string) {
    s == [] || (!IsSpace(s[0]) && !IsSpace(s[|s| - 1]))
  }

  /** Python's `s.strip()`: drops leading and trailing whitespace. */
  function Strip(s: string): (r: string)
    ensures Trimmed(r)
    ensures var i := SpaceRun(s); i + |r| <= |s| && r == s[i..i + |r|] && AllSpace(s[..i]) && AllSpace(s[i + |r|..])
  {
    var lead := SpaceRun(s);
    if lead == |s| then
      assert AllSpace(s[..lead]) && AllSpace(s[lead..]);
      ""
    else
      var trail := TrailingSpace(s);
      assert lead < |s| - trail;
      var r := s[lead..|s| - trail];
      assert r == s[lead..lead + |r|];
      assert AllSpace(s[..lead]);
      assert s[lead + |r|..] == s[|s| - trail..];
      assert AllSpace(s[lead + |r|..]);
      r
  }

  /** Stripping undoes surrounding a trimmed string with whitespace. */
  lemma StripSurrounded(w1: string, x: string, w2: string)
    requires AllSpace(w1) && AllSpace(w2) && Trimmed(x)
    ensures Strip(w1 + x + w2) == x
  {
    var s := w1 + x + w2;
    if x == [] {
      assert AllSpace(s);
    } else {
      assert s[|w1|] == x[0];
      assert s[|s| - 1 - |w2|] == x[|x| - 1];
      assert SpaceRun(s) == |w1|;
      assert TrailingSpace(s) == |w2|;
      assert s[|w1|..|s| - |w2|] == x;
    }
  }

  /** Python's `s.endswith(suffix)`. */
  predicate EndsWith(s: string, suffix: string) {
    |suffix| <= |s| && s[|s| - |suffix|..] == suffix
  }

  /** Lower-cases the ASCII letters of `s` and leaves every other character alone. */
  function LowerAscii(s: string): (r: string)
    ensures |r| == |s|
  {
    seq(|s|, i requires 0 <= i < |s| => if 'A' <= s[i] <= 'Z' then (s[i] as int + 32) as char else s[i])
  }

  predicate IsLetter(c: char) {
    ('A' <= c <= 'Z') || ('a' <= c <= 'z')
  }

  predicate IsDigit(c: char) {
    '0' <= c <= '9'
  }

  predicate AllDigits(s: string) {
    forall i :: 0 <= i < |s| ==> IsDigit(s[i])
  }

  function DigitChar(k: nat): (c: char)
    requires k < 10
    ensures IsDigit(c) && c as int - '0' as int == k
  {
    ('0' as int + k) as char
  }

  /** The number a string of ASCII digits spells in base ten, as Python's `int(s)`;
      callers establish `AllDigits` where the value matters. */
  function DecimalValue(s: string): int
  {
    if |s| == 0 then 0 else 10 * DecimalValue(s[..|s| - 1]) + (s[|s| - 1] as int - '0' as int)
  }

  lemma DecimalValueAppend(s: string, c: char)
    requires AllDigits(s) && IsDigit(c)
    ensures AllDigits(s + [c]) && DecimalValue(s + [c]) == 10 * DecimalValue(s) + (c as int - '0' as int)
  {
    assert (s + [c])[..|s|] == s;
  }

  /** Stripping what follows position `k` leaves a slice of `s` with only
      whitespace between `k` and it and after it. */
  lemma StripOfSuffix(s: string, k: nat)
    requires k <= |s|
    ensures var r := Strip(s[k..]);
      exists i :: (k <= i <= |s| - |r| && r == s[i..i + |r|] && AllSpace(s[k..i]) && AllSpace(s[i + |r|..]))
  {
    var t := s[k..];
    var r, i := Strip(t), SpaceRun(t);
    var j := k + i;
    assert t[..i] == s[k..j];
    assert t[i + |r|..] == s[j + |r|..];
    assert t[i..i + |r|] == s[j..j + |r|];
  }

  lemma SplitAt(s: string, k: nat)
    requires k <= |s|
    ensures s == s[..k] + s[k..]
  {
  }

  lemma SplitAround(s: string, k: nat)
    requires k < |s|
    ensures s == s[..k] + [s[k]] + s[k + 1..]
  {
  }

  lemma AppendAssoc(a: string, b: string, c: string)
    ensures a + (b + c) == a + b + c
  {
  }

  /** Two digit strings of the same length and value are equal: leading zeros included, a decimal has one spelling per width. */
  lemma {:induction false} DigitsUnique(a: string, b: string)
    requires |a| == |b| && AllDigits(a) && AllDigits(b) && DecimalValue(a) == DecimalValue(b)
    ensures a == b
  {
    if |a| > 0 {
      var n := |a| - 1;
      assert AllDigits(a[..n]) && AllDigits(b[..n]);
      DigitsUnique(a[..n], b[..n]);
      assert a == a[..n] + [a[n]] && b == b[..n] + [b[n]];
    }
  }

  /** Two-digit zero-padded decimal, as `%m` and `%d` print. */
  function Pad2(n: nat): (s: string)
    requires n < 100
    ensures |s| == 2 && AllDigits(s) && DecimalValue(s) == n
  {
    var a, b := DigitChar(n / 10), DigitChar(n % 10);
    DecimalValueAppend([], a);
    assert [] + [a] == [a];
    DecimalValueAppend([a], b);
    [a] + [b]
  }

  /** Four-digit zero-padded decimal, as `%Y` prints. */
  function Pad4(n: nat): (s: string)
    requires n < 10000
    ensures |s| == 4 && AllDigits(s) && DecimalValue(s) == n
  {
    var hi := Pad2(n / 100);
    var c, d := DigitChar(n / 10 % 10), DigitChar(n % 10);
    DecimalValueAppend(hi, c);
    DecimalValueAppend(hi + [c], d);
    hi + [c] + [d]
  }

  const Separator: string := ", "

  /** Python's `", ".join(names)`. */
  function JoinNames(names: seq<string>): (r: string)
    ensures |names| == 0 ==> r == ""
    ensures |names| > 0 ==> names[0] <= r && EndsWith(r, names[|names| - 1])
  {
    if |names| == 0 then ""
    else if |names| == 1 then names[0]
    else
      var head, tail := names[0] + Separator, JoinNames(names[1..]);
      assert (head + tail)[|head + tail| - |names[|names| - 1]|..] == tail[|tail| - |names[|names| - 1]|..];
      head + tail
  }

  predicate SeparatorAt(s: string, i: int) {
    0 <= i && i + 2 <= |s| && s[i] == ',' && s[i + 1] == ' '
  }

  /** Index of the first `", "` in `s` at or after `from`. */
  function FindSeparator(s: string, from: nat): (r: Option<nat>)
    decreases |s| - from
    ensures r.Some? ==> from <= r.value && SeparatorAt(s, r.value)
    ensures r.Some? ==> forall j :: from <= j < r.value ==> !SeparatorAt(s, j)
    ensures r.None? ==> forall j :: from <= j ==> !SeparatorAt(s, j)
  {
    if from + 2 > |s| then None
    else if SeparatorAt(s, from) then Some(from)
    else FindSeparator(s, from + 1)
  }

  /** Python's `s.split(", ")`: the inverse of `JoinNames` on a non-empty list of names without commas. */
  function SplitNames(s: string): (r: seq<string>)
    decreases |s|
    ensures |r| > 0
  {
    match FindSeparator(s, 0)
    case None => [s]
    case Some(i) => [s[..i]] + SplitNames(s[i + 2..])
  }

  predicate NoComma(s: string) {
    forall i :: 0 <= i < |s| ==> s[i] != ','
  }

  /** The first separator after a name without commas is the one that follows it. */
  lemma SeparatorAfterName(a: string, rest: string)
    requires NoComma(a)
    ensures FindSeparator(a + Separator + rest, 0) == Some(|a|)
    ensures (a + Separator + rest)[..|a|] == a && (a + Separator + rest)[|a| + 2..] == rest
  {
    var s := a + Separator + rest;
    assert SeparatorAt(s, |a|);
    forall j | 0 <= j < |a| ensures !SeparatorAt(s, j) {
      assert s[j] == a[j];
    }
    assert s[..|a|] == a;
    assert s[|a| + 2..] == rest;
  }

  lemma {:induction false} SplitJoinNames(names: seq<string>)
    requires |names| > 0
    requires forall k :: 0 <= k < |names| ==> NoComma(names[k])
    ensures SplitNames(JoinNames(names)) == names
  {
    var a := names[0];
    if |names| == 1 {
      assert FindSeparator(a, 0).None?;
    } else {
      SplitJoinNames(names[1..]);
      SplitAfterName(a, JoinNames(names[1..]), names[1..]);
      assert [a] + names[1..] == names;
    }
  }

  /** Splitting a name without commas, a separator and more text gives that name and the split of the rest. */
  lemma SplitAfterName(a: string, rest: string, tail: seq<string>)
    requires NoComma(a) && SplitNames(rest) == tail
    ensures SplitNames(a + Separator + rest) == [a] + tail
  {
    SeparatorAfterName(a, rest);
  }
}

=== FILE: wrappers.dfy ===
/** The optional-value datatype used wherever the scraper may find nothing:
    a missing markup element, a failed parse, a search without a match. */
module Wrappers {

  datatype Option<+T> = None | Some(value: T) {

    /** The wrapped value, or `default` when there is none. */
    function GetOr(default: T): T {
      match this
      case Some(v) => v
      case None => default
    }
  }
}
